=== FILE: README.md ===
# AI Studio page logic, modelled in Dafny

A model of the plain logic behind the AI Studio single-page demo: a user uploads an
image, writes a prompt, picks a style, asks a (mocked) service for a generation, and
browses a capped history of recent generations kept in browser storage.

The model covers four pieces and the page wiring between them:

- **Generate control** (`Generate`, generate.dfy). The guard on image and prompt. The
  retry loop: at most three counted failures, a backoff of `2^k * 500` ms after the
  k-th, and a terminal failure message. The abort path and the state the panel is left
  in. Each call's outcome is an element of an input sequence: resolved, `AbortError`,
  another `Error`, or a rejection that is not an `Error` at all. When the sequence runs
  out before the loop stops, the run is `Pending`. Termination is proved where it holds
  and refuted where it does not.
- **History** (`App`, app.dfy). Prepend and keep five. Restore an item's image, prompt
  and style. Initial state. Mirroring into an abstract key-to-list storage. Applying the
  upload widget's callbacks.
- **Relative timestamps** (`HistorySection`, history_section.dfy). The current time is
  a parameter. The locale date text of entries older than a week is an opaque string.
- **Upload widget** (`Upload`, upload.dfy). The MIME/size validator, the handling of the
  chosen file, the first-file rule of the drop and file-input handlers, and image
  removal.

Supporting modules:

- `JsText` (js_text.dfy): what `String.prototype.trim` strips, the truthiness of
  `string | null`, and decimal rendering in template literals.
- `MockApi` (mock_api.dfy): the generation record.
- `Wrappers` (wrappers.dfy): `Option`.

## Model

| member | source | states |
|---|---|---|
| JsText.Trim | src/components/GenerateSection.tsx:32 | `trim` returns a contiguous middle part of the prompt. That part neither starts nor ends with whitespace, and everything cut off on either side is whitespace. |
| JsText.TrimEmptyIffBlank | src/components/GenerateSection.tsx:32 | `prompt.trim()` is empty exactly when every character is ECMAScript whitespace or a line terminator. |
| JsText.Truthy | src/components/GenerateSection.tsx:32 | A `string \| null` is falsy exactly when it is null or the empty string. |
| JsText.Decimal | src/components/HistorySection.tsx:25-27 | A count rendered in a label is a non-empty string of decimal digits with no leading zero. |
| JsText.DecimalRoundTrip | src/components/HistorySection.tsx:25-27 | Reading a rendered count's digits back gives the count. |
| JsText.DecimalInjective | src/components/HistorySection.tsx:25-27 | Different counts render differently. |
| App.LoadHistory | src/App.tsx:14-17 | The start-up history is the stored list when the key is present, and empty when it is absent. |
| App.Slice | src/App.tsx:24 | `slice(0, n)` keeps the first `min(length, n)` elements, unchanged and in order. |
| App.AddToHistory | src/App.tsx:23-25 | The new length is `min(prev + 1, 5)`, never more than 5. The new item is element 0. Elements 1 onwards are the first `min(prev, 4)` old elements in order. Nothing else appears. |
| App.AddAllKeepsNewest | src/App.tsx:23-25 | After one or more additions, the history is the added items newest first, then the old list, cut at five. |
| App.AddAllBounded | src/App.tsx:24 | After at least one addition the history holds at most five items, whatever its length before. |
| App.Persist | src/App.tsx:19-21 | Writing the history under "generatedImages" and reading it back gives the same list. Every other key is unchanged. |
| App.Mount | src/App.tsx:10-21 | The initial state is no image, empty prompt and style "Editorial". History is the stored list, or empty when the key is absent. After the mount-time write, storage mirrors the history. |
| App.AddGeneration | src/App.tsx:19-25 | At page level, adding puts the item first, keeps at most five, and writes the new list to storage. The write overwrites whatever the key held before, so storage is in step afterwards. Image, prompt, style and other storage keys are untouched. |
| App.AddGenerations | src/App.tsx:23-25 | After one or more additions, storage mirrors the history whatever it held before, and the last item added is at the head. |
| App.AddGenerationsIsAddAll | src/App.tsx:23-25 | Page-level additions change the history exactly as repeated `addToHistory` does. |
| App.ReloadRestoresHistory | src/App.tsx:14-24 | After any additions, a reload shows the same history: the newest five, newest first. |
| App.RestoreFromHistory | src/App.tsx:27-31 | Restoring sets image, prompt and style to the item's `imageUrl`, `prompt` and `style`. History is unchanged. |
| App.RestoreForgetsPrevious | src/App.tsx:27-31 | The restored state depends only on the item and the history, not on the earlier image, prompt or style. Storage stays in step. |
| App.ApplyUploads | src/App.tsx:76-77 | Each `onImageUpload` call sets the page's image. After several calls the last one wins. |
| App.InitiallyDisabled | src/App.tsx:10-12 | On a freshly mounted page the generate button is disabled. |
| App.UploadControlsGenerate | src/components/UploadImage.tsx:40-52 | An accepted upload with a non-empty object URL becomes the page image. Generation is then enabled exactly when the prompt is not blank. Removing the image disables it. |
| App.GenerationRecorded | src/components/GenerateSection.tsx:51-53 | A successful run's item is both `generated` and the head of the stored history. Restoring it brings back its image. |
| Generate.Backoff | src/components/GenerateSection.tsx:63 | The wait is 500 ms at counter 0 and doubles with each increment of the counter, which is `2 ** attempts * 500`. |
| Generate.Loop | src/components/GenerateSection.tsx:39-72 | The attempt counter stays within 0..3 and the loop makes no more calls than outcomes exist. It is exhausted exactly when the counter reaches 3. The waits are `2^k * 500` for k = 1, 2, … with one wait per counted failure except the last, and none after the third. |
| Generate.RunLoop | src/components/GenerateSection.tsx:39-72 | The loop in the source's imperative shape (`while attempts < 3`, break on success or abort) computes the same end, counter, call count and waits as `Loop`. |
| Generate.ResumeStep | src/components/GenerateSection.tsx:43-72 | One loop iteration per outcome kind: stop on resolve or abort, retry without counting on a non-`Error`, count and wait, or give up on the third `Error`. |
| Generate.LoopCountsFailures | src/components/GenerateSection.tsx:55-61 | The counter equals the number of plain `Error` rejections among the calls made. AbortErrors, resolutions and non-`Error` rejections are never counted. |
| Generate.LoopEndExplained | src/components/GenerateSection.tsx:43-72 | The last call's outcome explains how the loop stopped, and no earlier call resolved or aborted. A pending loop saw no resolve or abort. |
| Generate.LoopStopsAt | src/components/GenerateSection.tsx:43-72 | The loop stops at the first resolve or abort, or at the third `Error`, whichever comes first. It ends with the matching end. |
| Generate.LoopBoundedWithoutNonErrors | src/components/GenerateSection.tsx:39-62 | If every rejection is an `Error`, the loop makes at most `3 - attempts` calls and always stops given that many outcomes. |
| Generate.NonErrorRejectionIgnored | src/components/GenerateSection.tsx:55-56 | A non-`Error` rejection costs a call and nothing else. End, counter and waits are unchanged. |
| Generate.BackoffSchedule | src/components/GenerateSection.tsx:62-66 | The backoff after the first counted failure is 1000 ms, and after the second it is 2000 ms. |
| Generate.CanGenerate | src/components/GenerateSection.tsx:32 | The guard passes exactly when the image is neither null nor "" and the prompt has a non-whitespace character. |
| Generate.ButtonDisabled | src/components/GenerateSection.tsx:118 | The button is disabled exactly when a run is loading or the guard of `handleGenerate` would return early. |
| Generate.ButtonDisabledIff | src/components/GenerateSection.tsx:118 | The button is disabled exactly when loading, or when the image is null or "", or when the prompt is blank. It is disabled with no image and an empty prompt, as the component test checks. |
| Generate.Settle | src/components/GenerateSection.tsx:51-75 | Once the loop stops, `loading` is false and the controller reference is null. `error` is set only on exhaustion. On success the result is `generated` and the modal opens. Otherwise `generated` and the modal keep their values. |
| Generate.HandleGenerate | src/components/GenerateSection.tsx:31-76 | With nothing to generate from, no call is made and the panel is unchanged. Otherwise `addToHistory` is called at most once, and `loading` is true exactly while the controller is held. A shown error is always the failure message and comes with no history entry. |
| Generate.FirstResolutionAddsOnce | src/components/GenerateSection.tsx:51-54 | A first resolution at call k sets `generated` and adds exactly that item to the history. The modal opens, the error stays cleared, and the run ends after k + 1 calls. |
| Generate.ThirdFailureShowsError | src/components/GenerateSection.tsx:61-69 | The third `Error` shows "Generation failed. Please try again." and adds nothing. The run ends after waits of 1000 and 2000 ms. |
| Generate.AbortStopsQuietly | src/components/GenerateSection.tsx:57-59 | An AbortError ends the run without an error and without a history entry. It does not count as an attempt, and `generated` and the modal are left alone. |
| Generate.AlwaysFailingShowsError | src/components/GenerateSection.test.tsx:69-95 | A service that always rejects with an `Error` is called three times. Then the failure message shows and nothing is added. |
| Generate.AtMostThreeCalls | src/components/GenerateSection.tsx:39-62 | If every rejection is an `Error`, a run makes at most 3 calls. Given three outcomes it finishes with `loading` false and no controller. |
| Generate.NonErrorRejectionsNeverStop | src/components/GenerateSection.tsx:55-56 | After any number n of non-`Error` rejections the loop is still pending. It has made n calls, counted nothing and waited nothing. |
| Generate.MockFailuresExceedAttemptBound | src/utils/mockApi.ts:24-25 | Three simulated mock failures followed by a success make four calls and add the item. |
| Generate.MockFailuresNeverShowError | src/utils/mockApi.ts:24-25 | Three simulated mock failures leave the run loading, with no error shown and no wait. |
| Generate.Intended | src/components/GenerateSection.tsx:56-61 | The corrected classification counts every rejection except an AbortError. It leaves every other outcome as it is: a resolution stays that resolution, and an abort stays an abort. |
| Generate.HandleGenerateIntended | src/components/GenerateSection.tsx:55-69 | With corrected counting, every run makes at most 3 calls and finishes once three outcomes are available. |
| Generate.IntendedCountsEveryFailure | src/components/GenerateSection.tsx:55-61 | With corrected counting, every rejection that does not end the loop adds one to the counter. |
| Generate.IntendedFirstResolutionAddsOnce | src/components/GenerateSection.tsx:45-54 | With corrected counting, a resolution within the first three calls sets the item, adds it once, opens the modal and ends after that call. |
| Generate.IntendedMockFailuresShowError | src/components/GenerateSection.tsx:61-68 | With corrected counting, three mock failures wait 1000 and 2000 ms and then show the failure message. |
| Generate.IntendedThreeFailuresShowError | src/components/GenerateSection.tsx:61-68 | With corrected counting, any three non-abort rejections in a row end the run after three calls. The waits are 1000 and 2000 ms, the failure message shows, and nothing is added. |
| Generate.HandleAbort | src/components/GenerateSection.tsx:78-81 | Abort clears `loading` and marks the held controller aborted, if there is one. `generated`, `error` and the modal are unchanged. |
| Generate.HandleAbortIdempotent | src/components/GenerateSection.tsx:78-81 | Aborting twice is the same as aborting once. Afterwards the button is enabled exactly when there is something to generate from. |
| HistorySection.AgeOf | src/components/HistorySection.tsx:19-27 | The floor-division cascade yields a minute count of 1–59, an hour count of 1–23, or a day count of 1–6 whenever it picks that bucket. |
| HistorySection.Label | src/components/HistorySection.tsx:24-34 | "Just now" for the first bucket, the date text for the last. A relative label is the count's digits followed by "m ago", "h ago" or "d ago", and its digits read back as the count. |
| HistorySection.AgeRanges | src/components/HistorySection.tsx:17-27 | Under 60000 ms, negative differences included, the label is "Just now". Then 1–59 minutes below 3600000 ms, 1–23 hours below 86400000 ms, 1–6 days below 604800000 ms, and the date after that. Each count is the floor quotient. |
| HistorySection.AgeMonotone | src/components/HistorySection.tsx:19-27 | Buckets are ordered by increasing difference. Within a bucket the count never decreases as the difference grows. |
| HistorySection.FormatTimestamp | src/components/HistorySection.tsx:14-35 | Each difference range gives its label string: "Just now", "{n}m ago", "{n}h ago" or "{n}d ago". Otherwise, or for an unparseable date, the locale date text is used. |
| HistorySection.LabelUnambiguous | src/components/HistorySection.tsx:24-27 | Apart from the date fallback, no two different ages produce the same label. |
| Upload.ValidateFile | src/components/UploadImage.tsx:19-29 | A file is accepted exactly when its type is image/jpeg, image/jpg or image/png and its size is at most 10485760 bytes. A bad type gives the type message whatever the size. |
| Upload.SizeBoundary | src/components/UploadImage.tsx:24-26 | Exactly 10485760 bytes is accepted and one byte more is rejected, because the comparison is strict. |
| Upload.HandleFile | src/components/UploadImage.tsx:31-55 | Exactly one callback is made. A message is shown exactly when nothing is passed on, and the same message goes to `onError`. `onImageUpload` is called once, with the object URL, exactly when the file is valid and the URL was created. If creating the URL fails, "Failed to upload image" is shown and sent to `onError`. `isUploading` ends false after a valid file and is untouched after an invalid one. |
| Upload.HandleFileOutcomes | src/components/UploadImage.tsx:33-45 | An invalid file shows and reports the same message and is not passed on. A valid file is passed on once and clears the message. |
| Upload.HandleDrop | src/components/UploadImage.tsx:57-65 | A drop clears the drag highlight. An empty drop does nothing else, and a non-empty one hands its first file to `handleFile` on the un-highlighted state. |
| Upload.HandleFileInput | src/components/UploadImage.tsx:67-73 | A missing or empty file list does nothing. Otherwise the first file goes to `handleFile`. |
| Upload.OnlyFirstFile | src/components/UploadImage.tsx:57-73 | Only the first file counts in either handler, and the two handlers agree. |
| Upload.RemoveImage | src/components/UploadImage.tsx:75-79 | Removing calls `onImageUpload(null)` and clears the message. Nothing else changes. |

## Findings

| source | as written | input that shows it | evidently intended | confidence | as-written member | corrected member |
|---|---|---|---|---|---|---|
| src/components/GenerateSection.tsx:56 | Only rejections that are `Error` instances count as attempts. The mock service's simulated failure is a plain `{ message }` object (src/utils/mockApi.ts:25). Such failures are retried at once, with no backoff and no count, and the failure message never shows. | Three simulated failures in a row: the run is still loading after three calls with no error. A success after them makes a fourth call. | Every rejection other than an AbortError counts. There are at most three calls with 1000 and 2000 ms waits, and then the failure message. | high (not executed) | Generate.MockFailuresNeverShowError | Generate.HandleGenerateIntended |

The component test rejects with `new Error(...)`, so that test only exercises the counted
`Error` path and cannot reveal this. The corrected
run differs from the written one only in `Generate.Intended`, which counts rejections
differently. It reuses the same loop, panel updates and history wiring.

## Left out

- Markup, styling and the commented-out legacy component variants: these are view glue only.
- The prompt and style form (src/components/PromptAndStyle.tsx): a controlled form with a static list.
- Mock service internals: `Math.random`, `setTimeout`, `crypto.randomUUID` and `Date` are replaced by the outcome sequence. The prompt, style and image the service receives are not modelled, and neither is the resolved record's content.
- Abort during a backoff: the wait ignores the signal (src/components/GenerateSection.tsx:41, :65), and the mock adds its abort listener to a signal that is already aborted, so that listener never fires (src/utils/mockApi.ts:38). As written, an abort during a backoff therefore does not stop the later calls. A later call can still resolve, and src/components/GenerateSection.tsx:51-53 then set the result, add it to history and open the modal after the user aborted. The model treats abort only as a call outcome, so it leaves this case out. For the same reason the model does not cover a second run started while an aborted run is still in its backoff.
- DOM effects: the scroll lock, the download link, and `URL.revokeObjectURL`. `URL.createObjectURL` becomes an input that is absent when it throws. Console logging is also left out.
- The drag-over and drag-leave handlers (they only set the drag highlight), the keyboard shortcut, and the file input's `accept` filter.
- Writes to the storage key by another tab: the page never rereads the key after mounting, and each addition overwrites it. The model proves the overwrite but not any merging with such writes.
- `localStorage` and JSON: storage is an abstract map from keys to decoded lists. A stored text that is empty or does not parse is not modelled.
- `toLocaleDateString`: the date text of old entries is an opaque input. Parsing the ISO `createdAt` text becomes the `Instant` input. The range limits of JavaScript dates are not modelled.
- The intermediate `isUploading = true` state inside `handleFile`: only the state after the handler is modelled.

=== FILE: app.dfy ===
/**
 The top-level page state of src/App.tsx: the uploaded image, the prompt,
 the style, and the recent-history list that is mirrored into browser
 storage. Browser storage is an abstract map from keys to already-decoded
 history lists; JSON encoding is not modelled.
 */
module App {
  import opened Wrappers
  import opened MockApi
  import JsText
  import Generate
  import Upload

  /** At most this many generations are kept. */
  const HistoryLimit: nat := 5

  /** The storage key the history is mirrored under. */
  const StorageKey: string := "generatedImages"

  /** The style selected before the user picks one. */
  const DefaultStyle: string := "Editorial"

  type History = seq<GenerateResponse>

  type Storage = map<string, History>

  datatype AppState = AppState(
    uploadedImage: Option<string>,
    prompt: string,
    style: string,
    history: History
  )

  /** The page state together with the browser storage it writes to. */
  datatype Session = Session(state: AppState, storage: Storage)

  function Min(a: nat, b: nat): nat {
    if a <= b then a else b
  }

  /** `xs.slice(0, n)` for a non-negative `n`: the first `n` elements, or
      all of them when there are fewer. */
  function Slice<T>(xs: seq<T>, n: nat): (r: seq<T>)
    ensures |r| == Min(|xs|, n)
    ensures forall i :: 0 <= i < |r| ==> r[i] == xs[i]
  {
    if n <= |xs| then xs[..n] else xs
  }

  /** `addToHistory`: prepend the new generation and keep the first five. */
  function AddToHistory(prev: History, item: GenerateResponse): (r: History)
    ensures |r| == Min(|prev| + 1, HistoryLimit)
    ensures |r| <= HistoryLimit
    ensures r[0] == item
    ensures r[1..] == prev[..Min(|prev|, HistoryLimit - 1)]
    ensures forall x :: x in r ==> x == item || x in prev
  {
    Slice([item] + prev, HistoryLimit)
  }

  /** The newest element first: `xs` reversed. */
  function Reverse<T>(xs: seq<T>): (r: seq<T>)
    ensures |r| == |xs|
    ensures forall i :: 0 <= i < |xs| ==> r[i] == xs[|xs| - 1 - i]
  {
    if xs == [] then [] else Reverse(xs[1..]) + [xs[0]]
  }

  /** Adding generations one after another, oldest first. */
  function AddAll(prev: History, items: seq<GenerateResponse>): History
    decreases |items|
  {
    if items == [] then prev else AddAll(AddToHistory(prev, items[0]), items[1..])
  }

  /** After one or more additions the history is the added generations,
      newest first, followed by what was there before, cut at five. */
  lemma {:induction false} AddAllKeepsNewest(prev: History, items: seq<GenerateResponse>)
    requires items != [] || |prev| <= HistoryLimit
    ensures AddAll(prev, items) == Slice(Reverse(items) + prev, HistoryLimit)
    decreases |items|
  {
    if items != [] {
      var h := AddToHistory(prev, items[0]);
      AddAllKeepsNewest(h, items[1..]);
      var rest := Reverse(items[1..]);
      assert Reverse(items) == rest + [items[0]];
      assert Reverse(items) + prev == rest + ([items[0]] + prev);
      SliceAppendSlice(rest, [items[0]] + prev, HistoryLimit);
    }
  }

  /** Cutting the tail at `n` before cutting the whole at `n` changes nothing. */
  lemma SliceAppendSlice<T>(a: seq<T>, b: seq<T>, n: nat)
    ensures Slice(a + Slice(b, n), n) == Slice(a + b, n)
  {
    var l := Slice(a + Slice(b, n), n);
    var r := Slice(a + b, n);
    assert |l| == |r|;
    forall i | 0 <= i < |l|
      ensures l[i] == r[i]
    {
      if i >= |a| {
        assert l[i] == Slice(b, n)[i - |a|];
      }
    }
  }

  /** However long the previous list was, adding one generation leaves at
      most five; once at most five, the list stays so. */
  lemma {:induction false} AddAllBounded(prev: History, items: seq<GenerateResponse>)
    requires items != [] || |prev| <= HistoryLimit
    ensures |AddAll(prev, items)| <= HistoryLimit
  {
    AddAllKeepsNewest(prev, items);
  }

  /** The history read at start-up: the stored list, or empty when the key
      is absent. */
  function LoadHistory(storage: Storage): (h: History)
    ensures StorageKey in storage ==> h == storage[StorageKey]
    ensures StorageKey !in storage ==> h == []
  {
    if StorageKey in storage then storage[StorageKey] else []
  }

  /** Every change of the history is written back under the same key. */
  function Persist(storage: Storage, history: History): (s: Storage)
    ensures LoadHistory(s) == history
    ensures s.Keys == storage.Keys + {StorageKey}
    ensures forall k :: k in storage && k != StorageKey ==> s[k] == storage[k]
  {
    storage[StorageKey := history]
  }

  /** The storage mirrors the history currently shown. */
  predicate Synced(s: Session) {
    StorageKey in s.storage && s.storage[StorageKey] == s.state.history
  }

  /** Mounting the page: no image, empty prompt, default style, history
      from storage; the mount-time effect writes that history back. */
  function Mount(storage: Storage): (s: Session)
    ensures s.state.uploadedImage == None
    ensures s.state.prompt == "" && s.state.style == "Editorial"
    ensures StorageKey !in storage ==> s.state.history == []
    ensures StorageKey in storage ==> s.state.history == storage[StorageKey]
    ensures Synced(s)
  {
    var history := LoadHistory(storage);
    Session(AppState(None, "", DefaultStyle, history), Persist(storage, history))
  }

  /** `addToHistory` at page level: the list changes and is persisted,
      overwriting whatever the key held before, whoever wrote it. */
  function AddGeneration(s: Session, item: GenerateResponse): (r: Session)
    ensures Synced(r)
    ensures |r.state.history| > 0 && r.state.history[0] == item
    ensures |r.state.history| <= HistoryLimit
    ensures r.state.(history := s.state.history) == s.state
    ensures forall k :: k in s.storage && k != StorageKey ==> k in r.storage && r.storage[k] == s.storage[k]
  {
    var h := AddToHistory(s.state.history, item);
    Session(s.state.(history := h), Persist(s.storage, h))
  }

  /** `restoreFromHistory`: the item's image, prompt and style become the
      current ones; the history is left alone. */
  function RestoreFromHistory(state: AppState, item: GenerateResponse): (r: AppState)
    ensures r.uploadedImage == Some(item.imageUrl)
    ensures r.prompt == item.prompt && r.style == item.style
    ensures r.history == state.history
  {
    state.(uploadedImage := Some(item.imageUrl), prompt := item.prompt, style := item.style)
  }

  /** Restoring depends only on the item, not on what was shown before, and
      leaves the storage mirror intact. */
  lemma RestoreForgetsPrevious(s: Session, t: AppState, item: GenerateResponse)
    requires Synced(s)
    requires t.history == s.state.history
    ensures RestoreFromHistory(s.state, item) == RestoreFromHistory(t, item)
    ensures Synced(Session(RestoreFromHistory(s.state, item), s.storage))
  {
  }

  /** Reloading the page after any sequence of additions shows the same
      history: the list survives a reload. */
  lemma {:induction false} ReloadRestoresHistory(s: Session, items: seq<GenerateResponse>)
    requires items != [] || (Synced(s) && |s.state.history| <= HistoryLimit)
    ensures var r := AddGenerations(s, items);
            Synced(r) && Mount(r.storage).state.history == r.state.history
            && r.state.history == Slice(Reverse(items) + s.state.history, HistoryLimit)
    decreases |items|
  {
    if items != [] {
      ReloadRestoresHistory(AddGeneration(s, items[0]), items[1..]);
    }
    AddAllKeepsNewest(s.state.history, items);
    AddGenerationsIsAddAll(s, items);
  }

  /** Adding generations one after another at page level. */
  function AddGenerations(s: Session, items: seq<GenerateResponse>): (r: Session)
    ensures items != [] || Synced(s) ==> Synced(r)
    ensures items != [] ==> |r.state.history| > 0 && r.state.history[0] == items[|items| - 1]
    decreases |items|
  {
    if items == [] then s else AddGenerations(AddGeneration(s, items[0]), items[1..])
  }

  lemma {:induction false} AddGenerationsIsAddAll(s: Session, items: seq<GenerateResponse>)
    ensures AddGenerations(s, items).state.history == AddAll(s.state.history, items)
    decreases |items|
  {
    if items != [] {
      AddGenerationsIsAddAll(AddGeneration(s, items[0]), items[1..]);
    }
  }

  /** `onImageUpload={setUploadedImage}`: the upload widget's callbacks,
      applied in order. */
  function ApplyUploads(state: AppState, uploads: seq<Option<string>>): (r: AppState)
    ensures uploads == [] ==> r == state
    ensures uploads != [] ==> r == state.(uploadedImage := uploads[|uploads| - 1])
    decreases |uploads|
  {
    if uploads == [] then state else ApplyUploads(state.(uploadedImage := uploads[0]), uploads[1..])
  }

  /** The page as mounted cannot generate: there is no image yet. */
  lemma InitiallyDisabled(storage: Storage)
    ensures Generate.ButtonDisabled(Mount(storage).state.uploadedImage, Mount(storage).state.prompt,
                                    Generate.InitialPanel.loading)
    ensures Mount(storage).state.uploadedImage == None
  {
  }

  /** Uploading an acceptable file enables generation once the prompt is
      not blank; removing the image disables it again. */
  lemma UploadControlsGenerate(state: AppState, u: Upload.UploadState, f: Upload.File, url: string)
    requires Upload.ValidateFile(f) == None && url != ""
    ensures var after := ApplyUploads(state, Upload.HandleFile(u, f, Some(url)).calls.uploads);
            after.uploadedImage == Some(url)
            && (Generate.CanGenerate(after.uploadedImage, after.prompt) <==> !JsText.AllWhitespace(state.prompt))
    ensures !Generate.CanGenerate(ApplyUploads(state, Upload.RemoveImage(u).calls.uploads).uploadedImage, state.prompt)
  {
    JsText.TrimEmptyIffBlank(state.prompt);
  }

  /** A successful run records its result at the head of the history, and
      the result can be restored from there. */
  lemma GenerationRecorded(s: Session, p: Generate.Panel, outcomes: seq<Generate.Outcome>)
    requires Generate.HandleGenerate(p, s.state.uploadedImage, s.state.prompt, outcomes).added != []
    ensures var run := Generate.HandleGenerate(p, s.state.uploadedImage, s.state.prompt, outcomes);
            var r := AddGenerations(s, run.added);
            && Synced(r)
            && r.state.history[0] == run.added[0]
            && run.panel.generated == Some(r.state.history[0])
            && RestoreFromHistory(r.state, r.state.history[0]).uploadedImage == Some(run.added[0].imageUrl)
  {
    var run := Generate.HandleGenerate(p, s.state.uploadedImage, s.state.prompt, outcomes);
    assert run.added == [run.added[0]];
    assert run.added[1..] == [];
  }
}

=== FILE: generate.dfy ===
/**
 The generate control of src/components/GenerateSection.tsx: the guard on
 the uploaded image and prompt, the retry loop with exponential backoff,
 the abort path, and the state the panel is left in.

 The generation service is not modelled. Each call it makes settles in one
 of four ways, and a run is driven by the finite sequence of those
 outcomes. When the loop needs more outcomes than the sequence holds, the
 run is reported as still pending: termination is a property to prove,
 not an assumption.
 */
module Generate {
  import opened Wrappers
  import opened MockApi
  import opened JsText

  /** The loop gives up after this many counted failures. */
  const MaxAttempts: nat := 3

  /** Backoff unit: the k-th counted failure waits 2^k of these. */
  const BaseDelayMs: nat := 500

  /** The message shown once the attempts are used up. */
  const FailureMessage: string := "Generation failed. Please try again."

  /** How one call to the generation service settles. */
  datatype Outcome =
    | Resolved(item: GenerateResponse)
      /** An `Error` whose `name` is "AbortError". */
    | AbortRejection
      /** Any other `Error` instance. */
    | ErrorRejection
      /** A rejection value that is not an `Error` instance, such as the plain
          `{ message }` object the mock service rejects with. */
    | NonErrorRejection

  /** The abort controller of the run in progress. */
  datatype Controller = Controller(aborted: bool)

  /** The component's state: the `loading`, `generated`, `error` and
      `showModal` hooks and the controller reference. */
  datatype Panel = Panel(
    loading: bool,
    generated: Option<GenerateResponse>,
    error: Option<string>,
    showModal: bool,
    controller: Option<Controller>
  )

  /** The hooks' initial values: not loading, nothing generated, no error,
      modal closed, no controller. */
  const InitialPanel: Panel := Panel(false, None, None, false, None)

  /** How the loop stopped, or that it has not stopped yet. */
  datatype End =
    | Succeeded(item: GenerateResponse)
    | Aborted
    | Exhausted
    | Pending

  /** What the loop did: how it ended, the attempt counter it ended with,
      how many calls it made, and the backoff waits in order. */
  datatype LoopResult = LoopResult(end: End, attempts: nat, calls: nat, waits: seq<nat>)

  function Pow2(k: nat): nat
  {
    if k == 0 then 1 else 2 * Pow2(k - 1)
  }

  /** The wait after the `attempts`-th counted failure: `2 ** attempts * 500`,
      so each wait doubles the one before, starting from 500 ms. */
  function Backoff(attempts: nat): (r: nat)
    ensures attempts == 0 ==> r == BaseDelayMs
    ensures attempts > 0 ==> r == 2 * Backoff(attempts - 1)
  {
    Pow2(attempts) * BaseDelayMs
  }

  /** Whether the outcome is one the attempt counter counts. */
  predicate Counted(o: Outcome) {
    o.ErrorRejection?
  }

  /** Whether the outcome ends the loop by itself. */
  predicate Settles(o: Outcome) {
    o.Resolved? || o.AbortRejection?
  }

  /** The number of counted failures among `os`. */
  function CountFailures(os: seq<Outcome>): nat
  {
    if os == [] then 0 else (if Counted(os[0]) then 1 else 0) + CountFailures(os[1..])
  }

  /** The `while (attempts < maxAttempts)` loop of `handleGenerate`, from an
      attempt counter `attempts`, fed the outcomes of its calls in order. */
  function Loop(attempts: nat, outcomes: seq<Outcome>): (r: LoopResult)
    requires attempts < MaxAttempts
    ensures attempts <= r.attempts <= MaxAttempts
    ensures r.calls <= |outcomes|
    ensures r.end.Exhausted? <==> r.attempts == MaxAttempts
    ensures r.end.Pending? ==> r.calls == |outcomes|
    ensures !r.end.Pending? ==> r.calls >= 1
    ensures |r.waits| == if r.end.Exhausted? then r.attempts - attempts - 1 else r.attempts - attempts
    ensures forall j :: 0 <= j < |r.waits| ==> r.waits[j] == Backoff(attempts + 1 + j)
    decreases |outcomes|
  {
    if outcomes == [] then
      LoopResult(Pending, attempts, 0, [])
    else
      match outcomes[0]
      case Resolved(item) =>
        LoopResult(Succeeded(item), attempts, 1, [])
      case AbortRejection =>
        LoopResult(Aborted, attempts, 1, [])
      case NonErrorRejection =>
        var r := Loop(attempts, outcomes[1..]);
        r.(calls := r.calls + 1)
      case ErrorRejection =>
        var next := attempts + 1;
        if next < MaxAttempts then
          var r := Loop(next, outcomes[1..]);
          r.(calls := r.calls + 1, waits := [Backoff(next)] + r.waits)
        else
          LoopResult(Exhausted, next, 1, [])
  }

  /** The attempt counter counts exactly the plain `Error` rejections among
      the calls made: AbortErrors, resolutions and non-`Error` rejections
      are never counted. */
  lemma {:induction false} LoopCountsFailures(attempts: nat, outcomes: seq<Outcome>)
    requires attempts < MaxAttempts
    ensures Loop(attempts, outcomes).attempts == attempts + CountFailures(outcomes[..Loop(attempts, outcomes).calls])
    decreases |outcomes|
  {
    var r := Loop(attempts, outcomes);
    if outcomes != [] {
      var rest := outcomes[1..];
      if outcomes[0].NonErrorRejection? || (outcomes[0].ErrorRejection? && attempts + 1 < MaxAttempts) {
        var next := if outcomes[0].ErrorRejection? then attempts + 1 else attempts;
        LoopCountsFailures(next, rest);
        assert outcomes[..r.calls] == [outcomes[0]] + rest[..Loop(next, rest).calls];
      } else {
        assert outcomes[..r.calls] == [outcomes[0]];
      }
    }
  }

  /** The call that stopped the loop is the one whose outcome says so: a
      resolution for success, an AbortError for abort, a plain `Error` for
      exhaustion; every earlier call was a rejection that did not stop it,
      and a loop still pending has seen no resolution or abort. */
  lemma {:induction false} LoopEndExplained(attempts: nat, outcomes: seq<Outcome>)
    requires attempts < MaxAttempts
    ensures var r := Loop(attempts, outcomes);
            && (forall j :: 0 <= j < r.calls - 1 ==> !Settles(outcomes[j]))
            && (r.end.Succeeded? ==> outcomes[r.calls - 1] == Resolved(r.end.item))
            && (r.end.Aborted? ==> outcomes[r.calls - 1] == AbortRejection)
            && (r.end.Exhausted? ==> outcomes[r.calls - 1] == ErrorRejection)
            && (r.end.Pending? ==> forall j :: 0 <= j < |outcomes| ==> !Settles(outcomes[j]))
    decreases |outcomes|
  {
    if outcomes != [] {
      var rest := outcomes[1..];
      if outcomes[0].NonErrorRejection? {
        LoopEndExplained(attempts, rest);
      } else if outcomes[0].ErrorRejection? && attempts + 1 < MaxAttempts {
        LoopEndExplained(attempts + 1, rest);
      }
    }
  }

  /** When every rejection is an `Error`, the loop makes at most
      `MaxAttempts - attempts` calls, and given that many outcomes it
      always stops. */
  lemma {:induction false} LoopBoundedWithoutNonErrors(attempts: nat, outcomes: seq<Outcome>)
    requires attempts < MaxAttempts
    requires forall j :: 0 <= j < |outcomes| ==> !outcomes[j].NonErrorRejection?
    ensures Loop(attempts, outcomes).calls <= MaxAttempts - attempts
    ensures |outcomes| >= MaxAttempts - attempts ==> !Loop(attempts, outcomes).end.Pending?
    decreases |outcomes|
  {
    if outcomes != [] && outcomes[0].ErrorRejection? && attempts + 1 < MaxAttempts {
      LoopBoundedWithoutNonErrors(attempts + 1, outcomes[1..]);
    }
  }

  /** A rejection that is not an `Error` is invisible to the loop apart
      from the call it costs: dropping it changes neither the end, nor the
      attempt counter, nor the waits. */
  lemma NonErrorRejectionIgnored(attempts: nat, outcomes: seq<Outcome>)
    requires attempts < MaxAttempts
    ensures var r := Loop(attempts, [NonErrorRejection] + outcomes);
            var s := Loop(attempts, outcomes);
            r.end == s.end && r.attempts == s.attempts && r.waits == s.waits
            && r.calls == s.calls + 1
  {
    assert ([NonErrorRejection] + outcomes)[1..] == outcomes;
  }

  /** The `k`-th counted failure, for `k < MaxAttempts`, is followed by a
      wait of `2^k * 500` ms: 1000 ms, then 2000 ms. */
  lemma BackoffSchedule()
    ensures Backoff(1) == 1000 && Backoff(2) == 2000
  {
  }

  /** `!uploadedImage || !prompt.trim()` is false: there is something to
      generate from. */
  predicate CanGenerate(uploadedImage: Option<string>, prompt: string)
    ensures CanGenerate(uploadedImage, prompt) <==>
              uploadedImage.Some? && uploadedImage.value != "" && !AllWhitespace(prompt)
  {
    TrimEmptyIffBlank(prompt);
    Truthy(uploadedImage) && Trim(prompt) != []
  }

  /** The `disabled` attribute of the generate button. */
  predicate ButtonDisabled(uploadedImage: Option<string>, prompt: string, loading: bool)
    ensures ButtonDisabled(uploadedImage, prompt, loading) <==> loading || !CanGenerate(uploadedImage, prompt)
  {
    !Truthy(uploadedImage) || !(Trim(prompt) != []) || loading
  }

  /** The button is disabled exactly when there is nothing to generate from
      or a run is loading; in particular with no image and an empty prompt. */
  lemma ButtonDisabledIff(uploadedImage: Option<string>, prompt: string, loading: bool)
    ensures ButtonDisabled(uploadedImage, prompt, loading)
            <==> loading || uploadedImage == None || uploadedImage == Some("") || AllWhitespace(prompt)
    ensures ButtonDisabled(None, "", loading)
  {
    TrimEmptyIffBlank(prompt);
  }

  /** The loop's result when `done` calls have been made and `waits`
      waited, and it continues from counter `attempts` on outcomes `os`. */
  function Resume(attempts: nat, os: seq<Outcome>, done: nat, waits: seq<nat>): LoopResult
    requires attempts < MaxAttempts
  {
    var t := Loop(attempts, os);
    LoopResult(t.end, t.attempts, done + t.calls, waits + t.waits)
  }

  /** One iteration of the loop body, seen from `Resume`. */
  lemma ResumeStep(attempts: nat, os: seq<Outcome>, done: nat, waits: seq<nat>)
    requires attempts < MaxAttempts && os != []
    ensures os[0].Resolved? ==>
              Resume(attempts, os, done, waits) == LoopResult(Succeeded(os[0].item), attempts, done + 1, waits)
    ensures os[0].AbortRejection? ==>
              Resume(attempts, os, done, waits) == LoopResult(Aborted, attempts, done + 1, waits)
    ensures os[0].NonErrorRejection? ==>
              Resume(attempts, os, done, waits) == Resume(attempts, os[1..], done + 1, waits)
    ensures os[0].ErrorRejection? && attempts + 1 < MaxAttempts ==>
              Resume(attempts, os, done, waits) == Resume(attempts + 1, os[1..], done + 1, waits + [Backoff(attempts + 1)])
    ensures os[0].ErrorRejection? && attempts + 1 == MaxAttempts ==>
              Resume(attempts, os, done, waits) == LoopResult(Exhausted, MaxAttempts, done + 1, waits)
  {
    if os[0].ErrorRejection? && attempts + 1 < MaxAttempts {
      var t := Loop(attempts + 1, os[1..]);
      assert waits + ([Backoff(attempts + 1)] + t.waits) == (waits + [Backoff(attempts + 1)]) + t.waits;
    }
  }

  /** The loop of `handleGenerate` written as the source writes it: a
      `while (attempts < maxAttempts)` that breaks on success and on abort.
      It also stops, with `Pending`, when the given outcomes run out. */
  method RunLoop(outcomes: seq<Outcome>) returns (end: End, attempts: nat, calls: nat, waits: seq<nat>)
    ensures LoopResult(end, attempts, calls, waits) == Loop(0, outcomes)
  {
    end, attempts, calls, waits := Pending, 0, 0, [];
    var stopped := false;
    assert Resume(0, outcomes[0..], 0, []) == Loop(0, outcomes);
    while attempts < MaxAttempts && !stopped
      invariant calls <= |outcomes|
      invariant !stopped && attempts < MaxAttempts ==> end == Pending
      invariant !stopped && attempts < MaxAttempts ==>
                  Loop(0, outcomes) == Resume(attempts, outcomes[calls..], calls, waits)
      invariant stopped || attempts >= MaxAttempts ==>
                  Loop(0, outcomes) == LoopResult(end, attempts, calls, waits)
      decreases |outcomes| - calls, if stopped then 0 else 1
    {
      if calls == |outcomes| {
        stopped := true;
      } else {
        ResumeStep(attempts, outcomes[calls..], calls, waits);
        assert outcomes[calls..][1..] == outcomes[calls + 1..];
        match outcomes[calls] {
          case Resolved(item) =>
            end, stopped := Succeeded(item), true;
          case AbortRejection =>
            end, stopped := Aborted, true;
          case NonErrorRejection =>
          case ErrorRejection =>
            attempts := attempts + 1;
            if attempts < MaxAttempts {
              waits := waits + [Backoff(attempts)];
            } else {
              end := Exhausted;
            }
        }
        calls := calls + 1;
      }
    }
  }

  /** The end a settling outcome gives the loop. */
  function SettledEnd(o: Outcome): End
    requires Settles(o)
  {
    if o.Resolved? then Succeeded(o.item) else Aborted
  }

  /** Where the loop stops. If the calls before call `k` neither resolved
      nor aborted and counted fewer failures than are allowed, then a
      resolution or AbortError at call `k` stops the loop there with the
      matching end and no further attempt counted, and a plain `Error` at
      call `k` that is the last allowed failure stops it there exhausted. */
  lemma {:induction false} LoopStopsAt(attempts: nat, outcomes: seq<Outcome>, k: nat)
    requires attempts < MaxAttempts && k < |outcomes|
    requires forall j :: 0 <= j < k ==> !Settles(outcomes[j])
    requires attempts + CountFailures(outcomes[..k]) < MaxAttempts
    ensures var r := Loop(attempts, outcomes);
            && (Settles(outcomes[k]) ==>
                  r.calls == k + 1 && r.end == SettledEnd(outcomes[k])
                  && r.attempts == attempts + CountFailures(outcomes[..k]))
            && (outcomes[k].ErrorRejection? && attempts + CountFailures(outcomes[..k]) == MaxAttempts - 1 ==>
                  r.calls == k + 1 && r.end == Exhausted)
    decreases k
  {
    if k > 0 {
      var rest := outcomes[1..];
      assert outcomes[..k] == [outcomes[0]] + rest[..k - 1];
      assert !Settles(outcomes[0]);
      forall j | 0 <= j < k - 1
        ensures !Settles(rest[j])
      {
        assert rest[j] == outcomes[j + 1];
      }
      if outcomes[0].ErrorRejection? {
        LoopStopsAt(attempts + 1, rest, k - 1);
      } else {
        LoopStopsAt(attempts, rest, k - 1);
      }
    }
  }

  /** One run of `handleGenerate`: the panel afterwards, the number of
      service calls, the backoff waits, and the arguments `addToHistory`
      was called with. */
  datatype Run = Run(panel: Panel, calls: nat, waits: seq<nat>, added: seq<GenerateResponse>)

  /** The panel once the loop has stopped (or the one it is still in). */
  function Settle(started: Panel, l: LoopResult): (p: Panel)
    requires started.loading && started.controller.Some? && started.error == None
    ensures p.loading <==> l.end.Pending?
    ensures p.controller.Some? <==> l.end.Pending?
    ensures p.error == (if l.end.Exhausted? then Some(FailureMessage) else None)
    ensures l.end.Succeeded? ==> p.generated == Some(l.end.item) && p.showModal
    ensures !l.end.Succeeded? ==> p.generated == started.generated && p.showModal == started.showModal
  {
    match l.end
    case Succeeded(item) =>
      started.(generated := Some(item), showModal := true, loading := false, controller := None)
    case Aborted =>
      started.(loading := false, controller := None)
    case Exhausted =>
      started.(error := Some(FailureMessage), loading := false, controller := None)
    case Pending =>
      started
  }

  /** `handleGenerate` as written, on panel `p` with the given props. */
  function HandleGenerate(p: Panel, uploadedImage: Option<string>, prompt: string, outcomes: seq<Outcome>): (r: Run)
    ensures !CanGenerate(uploadedImage, prompt) ==> r == Run(p, 0, [], [])
    ensures r.calls <= |outcomes|
    ensures |r.added| <= 1
    ensures CanGenerate(uploadedImage, prompt) ==>
              && (r.panel.loading <==> r.panel.controller.Some?)
              && (r.panel.error.Some? ==> r.panel.error == Some(FailureMessage) && r.added == [])
              && (r.added != [] ==> r.panel.showModal && !r.panel.loading && r.panel.generated == Some(r.added[0]))
              && (r.added == [] ==> r.panel.generated == p.generated && r.panel.showModal == p.showModal)
  {
    if !CanGenerate(uploadedImage, prompt) then
      Run(p, 0, [], [])
    else
      var started := p.(loading := true, error := None, controller := Some(Controller(false)));
      var l := Loop(0, outcomes);
      var added := if l.end.Succeeded? then [l.end.item] else [];
      Run(Settle(started, l), l.calls, l.waits, added)
  }

  /** With something to generate from, a first resolution at call `k`
      (no earlier resolution or abort, fewer than three failures counted
      before it) sets `generated`, adds exactly that item to the history,
      opens the modal, and ends the run after `k + 1` calls. */
  lemma FirstResolutionAddsOnce(p: Panel, uploadedImage: Option<string>, prompt: string,
                                outcomes: seq<Outcome>, k: nat)
    requires CanGenerate(uploadedImage, prompt)
    requires k < |outcomes| && outcomes[k].Resolved?
    requires forall j :: 0 <= j < k ==> !Settles(outcomes[j])
    requires CountFailures(outcomes[..k]) < MaxAttempts
    ensures var r := HandleGenerate(p, uploadedImage, prompt, outcomes);
            && r.added == [outcomes[k].item]
            && r.panel.generated == Some(outcomes[k].item) && r.panel.showModal
            && !r.panel.loading && r.panel.controller == None && r.panel.error == None
            && r.calls == k + 1
  {
    LoopStopsAt(0, outcomes, k);
  }

  /** A third plain `Error` before any resolution or abort shows the
      failure message, adds nothing to the history, ends the run, and was
      preceded by waits of 1000 and 2000 ms. */
  lemma ThirdFailureShowsError(p: Panel, uploadedImage: Option<string>, prompt: string,
                               outcomes: seq<Outcome>, k: nat)
    requires CanGenerate(uploadedImage, prompt)
    requires k < |outcomes| && outcomes[k].ErrorRejection?
    requires forall j :: 0 <= j < k ==> !Settles(outcomes[j])
    requires CountFailures(outcomes[..k]) == MaxAttempts - 1
    ensures var r := HandleGenerate(p, uploadedImage, prompt, outcomes);
            && r.panel.error == Some(FailureMessage) && r.added == []
            && !r.panel.loading && r.panel.controller == None
            && r.calls == k + 1 && r.waits == [1000, 2000]
  {
    LoopStopsAt(0, outcomes, k);
  }

  /** An AbortError before any resolution and before the attempts are used
      up ends the run with no error, no history entry, the attempt counter
      untouched by it, and `generated` and the modal as they were. */
  lemma AbortStopsQuietly(p: Panel, uploadedImage: Option<string>, prompt: string,
                          outcomes: seq<Outcome>, k: nat)
    requires CanGenerate(uploadedImage, prompt)
    requires k < |outcomes| && outcomes[k].AbortRejection?
    requires forall j :: 0 <= j < k ==> !Settles(outcomes[j])
    requires CountFailures(outcomes[..k]) < MaxAttempts
    ensures var r := HandleGenerate(p, uploadedImage, prompt, outcomes);
            && r.panel.error == None && r.added == []
            && !r.panel.loading && r.panel.controller == None
            && r.panel.generated == p.generated && r.panel.showModal == p.showModal
            && r.calls == k + 1
            && Loop(0, outcomes).attempts == CountFailures(outcomes[..k])
  {
    LoopStopsAt(0, outcomes, k);
  }

  /** The behaviour the component test checks: a service that always
      rejects with an `Error` is called three times, then the failure
      message is shown and nothing is added to the history. */
  lemma AlwaysFailingShowsError(p: Panel, uploadedImage: Option<string>, prompt: string, outcomes: seq<Outcome>)
    requires CanGenerate(uploadedImage, prompt)
    requires |outcomes| >= MaxAttempts
    requires forall j :: 0 <= j < |outcomes| ==> outcomes[j] == ErrorRejection
    ensures var r := HandleGenerate(p, uploadedImage, prompt, outcomes);
            r.calls == 3 && r.panel.error == Some(FailureMessage) && r.added == [] && !r.panel.loading
  {
    assert outcomes[..2] == [ErrorRejection, ErrorRejection];
    assert CountFailures(outcomes[..2]) == 2 by {
      var two := [ErrorRejection, ErrorRejection];
      assert two[1..] == [ErrorRejection] && [ErrorRejection][1..] == [];
      assert CountFailures([ErrorRejection]) == 1;
    }
    ThirdFailureShowsError(p, uploadedImage, prompt, outcomes, 2);
  }

  /** When every rejection is an `Error`, a run calls the service at most
      three times, and three outcomes are always enough for it to finish,
      leaving `loading` false and the controller reference cleared. */
  lemma AtMostThreeCalls(p: Panel, uploadedImage: Option<string>, prompt: string, outcomes: seq<Outcome>)
    requires forall j :: 0 <= j < |outcomes| ==> !outcomes[j].NonErrorRejection?
    ensures var r := HandleGenerate(p, uploadedImage, prompt, outcomes);
            && r.calls <= MaxAttempts
            && (CanGenerate(uploadedImage, prompt) && |outcomes| >= MaxAttempts ==>
                  !r.panel.loading && r.panel.controller == None)
  {
    LoopBoundedWithoutNonErrors(0, outcomes);
  }

  /** A run of rejections that are not `Error` instances never counts an
      attempt, never waits and never shows an error: after any number `n`
      of them the run is still loading, having made `n` calls. With the
      mock service, whose simulated failure is such a rejection, the
      three-attempt bound therefore does not hold. */
  lemma {:induction false} NonErrorRejectionsNeverStop(n: nat)
    ensures Loop(0, seq(n, _ => NonErrorRejection)) == LoopResult(Pending, 0, n, [])
  {
    if n > 0 {
      NonErrorRejectionsNeverStop(n - 1);
      assert seq(n, _ => NonErrorRejection)[1..] == seq(n - 1, _ => NonErrorRejection);
    }
  }

  /** The concrete case: three simulated failures of the mock service
      followed by a success make four calls and add the item, where three
      `Error` failures would have shown the failure message instead. */
  lemma MockFailuresExceedAttemptBound(p: Panel, uploadedImage: Option<string>, prompt: string, item: GenerateResponse)
    requires CanGenerate(uploadedImage, prompt)
    ensures var r := HandleGenerate(p, uploadedImage, prompt,
                                    [NonErrorRejection, NonErrorRejection, NonErrorRejection, Resolved(item)]);
            r.calls == 4 && r.added == [item]
  {
    var failures := [NonErrorRejection, NonErrorRejection, NonErrorRejection];
    var os := failures + [Resolved(item)];
    assert os == [NonErrorRejection, NonErrorRejection, NonErrorRejection, Resolved(item)];
    assert os[..3] == failures;
    assert CountFailures(failures) == 0 by {
      assert failures[1..][1..][1..] == [];
    }
    FirstResolutionAddsOnce(p, uploadedImage, prompt, os, 3);
  }

  /** Three simulated failures of the mock service leave the run loading,
      with no error shown and no wait taken. */
  lemma MockFailuresNeverShowError(p: Panel, uploadedImage: Option<string>, prompt: string)
    requires CanGenerate(uploadedImage, prompt)
    ensures var r := HandleGenerate(p, uploadedImage, prompt,
                                    [NonErrorRejection, NonErrorRejection, NonErrorRejection]);
            r.calls == 3 && r.panel.loading && r.panel.error == None && r.waits == []
  {
    NonErrorRejectionsNeverStop(3);
    assert seq(3, _ => NonErrorRejection) == [NonErrorRejection, NonErrorRejection, NonErrorRejection];
  }

  /** The evidently intended counting: every rejection other than an
      AbortError is a failed attempt. */
  function Intended(o: Outcome): (r: Outcome)
    ensures !r.NonErrorRejection?
    ensures Settles(r) <==> Settles(o)
    ensures !o.NonErrorRejection? ==> r == o
  {
    if o.NonErrorRejection? then ErrorRejection else o
  }

  /** `handleGenerate` with every non-abort rejection counted. */
  function HandleGenerateIntended(p: Panel, uploadedImage: Option<string>, prompt: string, outcomes: seq<Outcome>): (r: Run)
    ensures r.calls <= MaxAttempts
    ensures CanGenerate(uploadedImage, prompt) && |outcomes| >= MaxAttempts ==>
              !r.panel.loading && r.panel.controller == None
  {
    var counted := seq(|outcomes|, j requires 0 <= j < |outcomes| => Intended(outcomes[j]));
    AtMostThreeCalls(p, uploadedImage, prompt, counted);
    HandleGenerate(p, uploadedImage, prompt, counted)
  }

  /** With the intended counting, the mock's simulated failures are
      retried with backoff and surface as the failure message. */
  lemma IntendedMockFailuresShowError(p: Panel, uploadedImage: Option<string>, prompt: string)
    requires CanGenerate(uploadedImage, prompt)
    ensures var r := HandleGenerateIntended(p, uploadedImage, prompt,
                                            [NonErrorRejection, NonErrorRejection, NonErrorRejection]);
            r.calls == 3 && r.panel.error == Some(FailureMessage) && r.waits == [1000, 2000] && !r.panel.loading
  {
    var counted := [ErrorRejection, ErrorRejection, ErrorRejection];
    assert seq(3, j requires 0 <= j < 3 => Intended([NonErrorRejection, NonErrorRejection, NonErrorRejection][j])) == counted;
    AlwaysFailingShowsError(p, uploadedImage, prompt, counted);
  }

  /** With the intended counting, any three rejections other than
      AbortErrors in a row, of whatever kind, end the run after three calls
      and waits of 1000 and 2000 ms with the failure message and no
      history entry. */
  lemma IntendedThreeFailuresShowError(p: Panel, uploadedImage: Option<string>, prompt: string, outcomes: seq<Outcome>)
    requires CanGenerate(uploadedImage, prompt)
    requires |outcomes| >= MaxAttempts
    requires forall j :: 0 <= j < MaxAttempts ==> !Settles(outcomes[j])
    ensures var r := HandleGenerateIntended(p, uploadedImage, prompt, outcomes);
            && r.calls == 3 && r.panel.error == Some(FailureMessage) && r.added == []
            && r.waits == [1000, 2000] && !r.panel.loading
  {
    var counted := seq(|outcomes|, j requires 0 <= j < |outcomes| => Intended(outcomes[j]));
    assert counted[..2] == [ErrorRejection, ErrorRejection];
    assert CountFailures(counted[..2]) == 2 by {
      var two := [ErrorRejection, ErrorRejection];
      assert two[1..] == [ErrorRejection] && [ErrorRejection][1..] == [];
      assert CountFailures([ErrorRejection]) == 1;
    }
    ThirdFailureShowsError(p, uploadedImage, prompt, counted, 2);
  }

  /** With the intended counting, every outcome that does not settle the
      loop is a counted failure. */
  lemma {:induction false} IntendedCountsEveryFailure(os: seq<Outcome>)
    requires forall j :: 0 <= j < |os| ==> !Settles(os[j])
    ensures CountFailures(seq(|os|, j requires 0 <= j < |os| => Intended(os[j]))) == |os|
  {
    var counted := seq(|os|, j requires 0 <= j < |os| => Intended(os[j]));
    if os != [] {
      assert counted[1..] == seq(|os[1..]|, j requires 0 <= j < |os[1..]| => Intended(os[1..][j]));
      IntendedCountsEveryFailure(os[1..]);
    }
  }

  /** With the intended counting, a resolution reached before three
      failures still sets the item, adds it once and opens the modal. */
  lemma IntendedFirstResolutionAddsOnce(p: Panel, uploadedImage: Option<string>, prompt: string,
                                        outcomes: seq<Outcome>, k: nat)
    requires CanGenerate(uploadedImage, prompt)
    requires k < |outcomes| && outcomes[k].Resolved?
    requires forall j :: 0 <= j < k ==> !Settles(outcomes[j])
    requires k < MaxAttempts
    ensures var r := HandleGenerateIntended(p, uploadedImage, prompt, outcomes);
            && r.added == [outcomes[k].item]
            && r.panel.generated == Some(outcomes[k].item) && r.panel.showModal
            && !r.panel.loading && r.panel.error == None
            && r.calls == k + 1
  {
    var counted := seq(|outcomes|, j requires 0 <= j < |outcomes| => Intended(outcomes[j]));
    assert counted[..k] == seq(k, j requires 0 <= j < k => Intended(outcomes[..k][j]));
    IntendedCountsEveryFailure(outcomes[..k]);
    FirstResolutionAddsOnce(p, uploadedImage, prompt, counted, k);
  }

  /** `handleAbort`: abort the controller of the run in progress, if any,
      and clear `loading`; nothing else changes. */
  function HandleAbort(p: Panel): (r: Panel)
    ensures !r.loading
    ensures r.controller.Some? <==> p.controller.Some?
    ensures r.controller.Some? ==> r.controller.value.aborted
    ensures r.generated == p.generated && r.error == p.error && r.showModal == p.showModal
  {
    var c := match p.controller
             case Some(_) => Some(Controller(true))
             case None => None;
    p.(controller := c, loading := false)
  }

  /** Aborting twice is aborting once; afterwards the button is enabled
      exactly when there is something to generate from. */
  lemma HandleAbortIdempotent(p: Panel, uploadedImage: Option<string>, prompt: string)
    ensures HandleAbort(HandleAbort(p)) == HandleAbort(p)
    ensures !ButtonDisabled(uploadedImage, prompt, HandleAbort(p).loading) <==> CanGenerate(uploadedImage, prompt)
  {
  }
}

=== FILE: history_section.dfy ===
/**
 The relative-time labels of the history list in
 src/components/HistorySection.tsx. The current time is a parameter, and
 the locale date text shown for entries older than a week is an opaque
 string supplied by the caller.
 */
module HistorySection {
  import opened JsText

  const SecondMs: int := 1000
  const MinuteMs: int := 60 * SecondMs
  const HourMs: int := 60 * MinuteMs
  const DayMs: int := 24 * HourMs
  const WeekMs: int := 7 * DayMs

  /** `new Date(iso)`: a point in time in milliseconds, or an invalid date
      when the text does not parse. */
  datatype Instant = Valid(ms: int) | Invalid

  /** The bucket a time difference falls into. */
  datatype Age =
    | JustNow
    | MinutesAgo(minutes: nat)
    | HoursAgo(hours: nat)
    | DaysAgo(days: nat)
    | OlderThanAWeek

  /** The buckets in order of increasing age. */
  function Rank(a: Age): nat {
    match a
    case JustNow => 0
    case MinutesAgo(_) => 1
    case HoursAgo(_) => 2
    case DaysAgo(_) => 3
    case OlderThanAWeek => 4
  }

  /** The bucket logic of `formatTimestamp` on `diff = now - date`: whole
      seconds, minutes, hours and days by floor division (Dafny's `/` with
      a positive divisor is `Math.floor` of the quotient), compared in that
      order. */
  function AgeOf(diff: int): (a: Age)
    ensures a.MinutesAgo? ==> 1 <= a.minutes <= 59
    ensures a.HoursAgo? ==> 1 <= a.hours <= 23
    ensures a.DaysAgo? ==> 1 <= a.days <= 6
  {
    var seconds := diff / SecondMs;
    var minutes := diff / MinuteMs;
    var hours := diff / HourMs;
    var days := diff / DayMs;
    if seconds < 60 then JustNow
    else if minutes < 60 then MinutesAgo(minutes)
    else if hours < 24 then HoursAgo(hours)
    else if days < 7 then DaysAgo(days)
    else OlderThanAWeek
  }

  /** Each bucket is a range of the millisecond difference, with the count
      it shows: under a minute (negative differences included) is "just
      now", then 1 to 59 minutes, 1 to 23 hours, 1 to 6 days, then older. */
  lemma AgeRanges(diff: int)
    ensures AgeOf(diff) == JustNow <==> diff < MinuteMs
    ensures AgeOf(diff).MinutesAgo? <==> MinuteMs <= diff < HourMs
    ensures AgeOf(diff).HoursAgo? <==> HourMs <= diff < DayMs
    ensures AgeOf(diff).DaysAgo? <==> DayMs <= diff < WeekMs
    ensures AgeOf(diff) == OlderThanAWeek <==> WeekMs <= diff
    ensures AgeOf(diff).MinutesAgo? ==> AgeOf(diff).minutes == diff / MinuteMs && 1 <= AgeOf(diff).minutes <= 59
    ensures AgeOf(diff).HoursAgo? ==> AgeOf(diff).hours == diff / HourMs && 1 <= AgeOf(diff).hours <= 23
    ensures AgeOf(diff).DaysAgo? ==> AgeOf(diff).days == diff / DayMs && 1 <= AgeOf(diff).days <= 6
  {
  }

  /** An older entry never gets a younger bucket, and within a bucket the
      count shown never goes down. */
  lemma AgeMonotone(d1: int, d2: int)
    requires d1 <= d2
    ensures Rank(AgeOf(d1)) <= Rank(AgeOf(d2))
    ensures AgeOf(d1).MinutesAgo? && AgeOf(d2).MinutesAgo? ==> AgeOf(d1).minutes <= AgeOf(d2).minutes
    ensures AgeOf(d1).HoursAgo? && AgeOf(d2).HoursAgo? ==> AgeOf(d1).hours <= AgeOf(d2).hours
    ensures AgeOf(d1).DaysAgo? && AgeOf(d2).DaysAgo? ==> AgeOf(d1).days <= AgeOf(d2).days
  {
    AgeRanges(d1);
    AgeRanges(d2);
  }

  /** The text of a bucket: "Just now", "{n}m ago", "{n}h ago", "{n}d ago",
      or the locale date text. */
  function Label(a: Age, dateText: string): (r: string)
    ensures a == JustNow ==> r == "Just now"
    ensures a == OlderThanAWeek ==> r == dateText
    ensures a.MinutesAgo? || a.HoursAgo? || a.DaysAgo? ==>
              && |r| > 5 && IsDigit(r[0]) && r[|r| - 5..] == Unit(a)
              && (forall i :: 0 <= i < |r| - 5 ==> IsDigit(r[i]))
              && DigitsValue(r[..|r| - 5]) == Count(a)
  {
    match a
    case JustNow => "Just now"
    case MinutesAgo(m) =>
      DecimalRoundTrip(m);
      assert (Decimal(m) + "m ago")[..|Decimal(m)|] == Decimal(m);
      Decimal(m) + "m ago"
    case HoursAgo(h) =>
      DecimalRoundTrip(h);
      assert (Decimal(h) + "h ago")[..|Decimal(h)|] == Decimal(h);
      Decimal(h) + "h ago"
    case DaysAgo(d) =>
      DecimalRoundTrip(d);
      assert (Decimal(d) + "d ago")[..|Decimal(d)|] == Decimal(d);
      Decimal(d) + "d ago"
    case OlderThanAWeek => dateText
  }

  /** `formatTimestamp`, with the current time `now` and the locale date
      text of the entry given. An invalid date makes every comparison of
      the source false, so it falls through to the date text. */
  function FormatTimestamp(created: Instant, now: int, dateText: string): (r: string)
    ensures created.Invalid? ==> r == dateText
    ensures created.Valid? && now - created.ms < MinuteMs ==> r == "Just now"
    ensures created.Valid? && MinuteMs <= now - created.ms < HourMs ==>
              r == Decimal((now - created.ms) / MinuteMs) + "m ago"
    ensures created.Valid? && HourMs <= now - created.ms < DayMs ==>
              r == Decimal((now - created.ms) / HourMs) + "h ago"
    ensures created.Valid? && DayMs <= now - created.ms < WeekMs ==>
              r == Decimal((now - created.ms) / DayMs) + "d ago"
    ensures created.Valid? && WeekMs <= now - created.ms ==> r == dateText
  {
    match created
    case Invalid => dateText
    case Valid(ms) =>
      AgeRanges(now - ms);
      Label(AgeOf(now - ms), dateText)
  }

  lemma DecimalSuffixCancel(m: nat, n: nat, u: string, v: string)
    requires |u| == |v|
    requires Decimal(m) + u == Decimal(n) + v
    ensures m == n && u == v
  {
    var a := Decimal(m) + u;
    assert |Decimal(m)| == |Decimal(n)|;
    assert Decimal(m) == a[..|Decimal(m)|] == Decimal(n);
    DecimalInjective(m, n);
    assert u == a[|Decimal(m)|..] == v;
  }

  /** The count a relative label shows. */
  function Count(a: Age): nat
    requires a.MinutesAgo? || a.HoursAgo? || a.DaysAgo?
  {
    match a
    case MinutesAgo(m) => m
    case HoursAgo(h) => h
    case DaysAgo(d) => d
  }

  /** The unit suffix of a relative label. */
  function Unit(a: Age): string
    requires a.MinutesAgo? || a.HoursAgo? || a.DaysAgo?
  {
    match a
    case MinutesAgo(_) => "m ago"
    case HoursAgo(_) => "h ago"
    case DaysAgo(_) => "d ago"
  }

  /** A relative label starts with a digit, "Just now" does not. */
  lemma LabelStart(a: Age, dateText: string)
    ensures a.JustNow? ==> !IsDigit(Label(a, dateText)[0])
    ensures a.MinutesAgo? || a.HoursAgo? || a.DaysAgo? ==> |Label(a, dateText)| > 0 && IsDigit(Label(a, dateText)[0])
  {
  }

  /** Apart from the date fallback, the label determines the bucket and its
      count: no two different ages read the same. */
  lemma LabelUnambiguous(a: Age, b: Age, dateText: string)
    requires a != OlderThanAWeek && b != OlderThanAWeek
    requires Label(a, dateText) == Label(b, dateText)
    ensures a == b
  {
    LabelStart(a, dateText);
    LabelStart(b, dateText);
    if !a.JustNow? && !b.JustNow? {
      assert Label(a, dateText) == Decimal(Count(a)) + Unit(a);
      assert Label(b, dateText) == Decimal(Count(b)) + Unit(b);
      DecimalSuffixCancel(Count(a), Count(b), Unit(a), Unit(b));
    }
  }
}

=== FILE: js_text.dfy ===
/**
 The few JavaScript string behaviours the components depend on: what
 `String.prototype.trim` removes, which `string | null` values are truthy,
 and how a template literal renders a non-negative integer.
 */
module JsText {
  import opened Wrappers

  /** The ECMAScript WhiteSpace and LineTerminator code points (section
      12.2 and 12.3 of ECMA-262), which `trim` strips from both ends. */
  predicate IsJsWhitespace(c: char) {
    var n := c as int;
    || n == 0x09 || n == 0x0A || n == 0x0B || n == 0x0C || n == 0x0D
    || n == 0x20 || n == 0xA0 || n == 0x1680 || (0x2000 <= n <= 0x200A)
    || n == 0x2028 || n == 0x2029 || n == 0x202F || n == 0x205F
    || n == 0x3000 || n == 0xFEFF
  }

  /** Every character of `s` from `lo` up to `hi` is whitespace. */
  predicate WhitespaceBetween(s: string, lo: int, hi: int)
    requires 0 <= lo <= hi <= |s|
  {
    forall k :: lo <= k < hi ==> IsJsWhitespace(s[k])
  }

  predicate AllWhitespace(s: string) {
    WhitespaceBetween(s, 0, |s|)
  }

  /** The end of the whitespace run starting at `i`. */
  function SkipLeading(s: string, i: nat): (n: nat)
    requires i <= |s|
    ensures i <= n <= |s|
    ensures WhitespaceBetween(s, i, n)
    ensures n == |s| || !IsJsWhitespace(s[n])
    decreases |s| - i
  {
    if i < |s| && IsJsWhitespace(s[i]) then SkipLeading(s, i + 1) else i
  }

  /** The start of the whitespace run ending at `j`, not going below `lo`. */
  function SkipTrailing(s: string, lo: nat, j: nat): (m: nat)
    requires lo <= j <= |s|
    ensures lo <= m <= j
    ensures WhitespaceBetween(s, m, j)
    ensures m == lo || !IsJsWhitespace(s[m - 1])
    decreases j
  {
    if j > lo && IsJsWhitespace(s[j - 1]) then SkipTrailing(s, lo, j - 1) else j
  }

  /** `r` is `s[a..b]`, and only whitespace lies before `a` and after `b`. */
  predicate TrimmedAt(s: string, r: string, a: int, b: int) {
    && 0 <= a <= b <= |s|
    && r == s[a..b]
    && WhitespaceBetween(s, 0, a)
    && WhitespaceBetween(s, b, |s|)
  }

  /** `s.trim()`: the longest middle part of `s` that neither starts nor
      ends with whitespace, everything cut off on either side being
      whitespace. */
  function Trim(s: string): (r: string)
    ensures exists a, b :: TrimmedAt(s, r, a, b)
    ensures r == [] || (!IsJsWhitespace(r[0]) && !IsJsWhitespace(r[|r| - 1]))
  {
    var a := SkipLeading(s, 0);
    var b := SkipTrailing(s, a, |s|);
    assert TrimmedAt(s, s[a..b], a, b);
    s[a..b]
  }

  /** A prompt is blank, as far as `!prompt.trim()` is concerned, exactly
      when every character of it is whitespace. */
  lemma TrimEmptyIffBlank(s: string)
    ensures Trim(s) == [] <==> AllWhitespace(s)
  {
    var r := Trim(s);
    var a, b :| TrimmedAt(s, r, a, b);
    if r != [] {
      assert s[a] == r[0];
    }
  }

  /** JavaScript truthiness of a `string | null`: null and the empty
      string are both falsy. */
  predicate Truthy(s: Option<string>)
    ensures !Truthy(s) <==> s == None || s == Some("")
  {
    s.Some? && s.value != ""
  }

  /** The decimal digit character for `d`. */
  function DigitChar(d: nat): (c: char)
    requires d < 10
    ensures '0' <= c <= '9'
    ensures c as int - '0' as int == d
  {
    (d + '0' as int) as char
  }

  predicate IsDigit(c: char) {
    '0' <= c <= '9'
  }

  /** How a template literal `${n}` renders a non-negative integer:
      decimal digits, most significant first, no leading zero. */
  function Decimal(n: nat): (r: string)
    ensures |r| > 0
    ensures forall i :: 0 <= i < |r| ==> IsDigit(r[i])
    ensures r[0] == '0' ==> n == 0
  {
    if n < 10 then [DigitChar(n)] else Decimal(n / 10) + [DigitChar(n % 10)]
  }

  /** Reads a string of decimal digits back as the number it denotes. */
  function DigitsValue(s: string): nat
    requires forall i :: 0 <= i < |s| ==> IsDigit(s[i])
  {
    if |s| == 0 then 0
    else
      var last := s[|s| - 1];
      assert IsDigit(last);
      DigitsValue(s[..|s| - 1]) * 10 + (last as int - '0' as int)
  }

  /** Rendering a count and reading it back gives the count: the digits
      shown in a label determine the number it was built from. */
  lemma {:induction false} DecimalRoundTrip(n: nat)
    ensures DigitsValue(Decimal(n)) == n
  {
    var r := Decimal(n);
    if n >= 10 {
      DecimalRoundTrip(n / 10);
      assert r[..|r| - 1] == Decimal(n / 10);
    }
  }

  /** Distinct counts render as distinct strings. */
  lemma DecimalInjective(m: nat, n: nat)
    requires Decimal(m) == Decimal(n)
    ensures m == n
  {
    DecimalRoundTrip(m);
    DecimalRoundTrip(n);
  }
}

=== FILE: mock_api.dfy ===
/**
 The record the generation service hands back (src/utils/mockApi.ts). The
 service itself is not modelled: its random outcome, its timer and its
 identifiers become inputs of the operations that call it.
 */
module MockApi {

  /** One generation: identifier, resulting image reference, prompt text,
      style label and ISO creation timestamp, all carried verbatim. */
  datatype GenerateResponse = GenerateResponse(
    id: string,
    imageUrl: string,
    prompt: string,
    style: string,
    createdAt: string
  )
}

=== FILE: upload.dfy ===
/**
 The upload widget of src/components/UploadImage.tsx: the file validator,
 the handling of one chosen file, the drop and file-input handlers, and
 image removal. Calls to the parent's `onImageUpload` and `onError`
 callbacks are recorded in order; `URL.createObjectURL` becomes the
 parameter `objectUrl`, `None` when it throws.
 */
module Upload {
  import opened Wrappers

  /** The accepted MIME types. */
  const ValidTypes: seq<string> := ["image/jpeg", "image/jpg", "image/png"]

  /** The largest accepted size in bytes: 10 MiB. */
  const MaxSize: nat := 10 * 1024 * 1024

  const InvalidTypeMessage: string := "Please upload a valid image file (JPG, JPEG, or PNG)"
  const TooLargeMessage: string := "File size must be less than 10MB"
  const UploadFailedMessage: string := "Failed to upload image"

  /** What the widget looks at in a browser `File`. */
  datatype File = File(mimeType: string, size: nat)

  /** The widget's own state hooks. */
  datatype UploadState = UploadState(isDragging: bool, isUploading: bool, localError: Option<string>)

  /** The callbacks made to the parent, in order: `onImageUpload` arguments
      and `onError` arguments. */
  datatype Callbacks = Callbacks(uploads: seq<Option<string>>, errors: seq<string>)

  /** The state after a handler and the callbacks it made. */
  datatype Step = Step(state: UploadState, calls: Callbacks)

  /** `validateFile`: `None` for an acceptable file, otherwise the message
      of the first check it fails, the type check coming first. */
  function ValidateFile(f: File): (r: Option<string>)
    ensures r == None <==> f.mimeType in ValidTypes && f.size <= MaxSize
    ensures f.mimeType !in ValidTypes ==> r == Some(InvalidTypeMessage)
    ensures f.mimeType in ValidTypes && f.size > MaxSize ==> r == Some(TooLargeMessage)
  {
    if f.mimeType !in ValidTypes then Some(InvalidTypeMessage)
    else if f.size > MaxSize then Some(TooLargeMessage)
    else None
  }

  /** The size limit is inclusive: exactly 10485760 bytes passes, one byte
      more is rejected; and a wrong type is reported whatever the size. */
  lemma SizeBoundary(mimeType: string, size: nat)
    ensures ValidateFile(File("image/png", 10485760)) == None
    ensures ValidateFile(File("image/jpeg", 10485761)) == Some(TooLargeMessage)
    ensures mimeType !in ValidTypes ==> ValidateFile(File(mimeType, size)) == Some(InvalidTypeMessage)
  {
  }

  /** `handleFile` on one chosen file. */
  function HandleFile(s: UploadState, f: File, objectUrl: Option<string>): (r: Step)
    ensures |r.calls.uploads| + |r.calls.errors| == 1
    ensures r.calls.uploads == [] <==> r.state.localError.Some?
    ensures r.state.localError.Some? ==> r.calls.errors == [r.state.localError.value]
    ensures r.calls.uploads != [] <==> ValidateFile(f) == None && objectUrl.Some?
    ensures r.calls.uploads != [] ==> r.calls.uploads == [objectUrl]
    ensures ValidateFile(f).Some? ==> r.state == s.(localError := ValidateFile(f))
    ensures ValidateFile(f) == None ==> !r.state.isUploading
    ensures ValidateFile(f) == None && objectUrl.None? ==>
              r.state.localError == Some(UploadFailedMessage) && r.calls == Callbacks([], [UploadFailedMessage])
    ensures r.state.isDragging == s.isDragging
  {
    match ValidateFile(f)
    case Some(message) =>
      Step(s.(localError := Some(message)), Callbacks([], [message]))
    case None =>
      var uploading := s.(isUploading := true, localError := None);
      var done := match objectUrl
                  case Some(url) => Step(uploading, Callbacks([Some(url)], []))
                  case None => Step(uploading.(localError := Some(UploadFailedMessage)), Callbacks([], [UploadFailedMessage]));
      done.(state := done.state.(isUploading := false))
  }

  /** `handleDrop`: clear the drag highlight, then handle the first dropped
      file if there is one. */
  function HandleDrop(s: UploadState, files: seq<File>, objectUrl: Option<string>): (r: Step)
    ensures !r.state.isDragging
    ensures files == [] ==> r == Step(s.(isDragging := false), Callbacks([], []))
    ensures |files| > 0 ==> r == HandleFile(s.(isDragging := false), files[0], objectUrl)
  {
    var cleared := s.(isDragging := false);
    if |files| > 0 then HandleFile(cleared, files[0], objectUrl) else Step(cleared, Callbacks([], []))
  }

  /** `handleFileInput`: handle the first chosen file, if the input has a
      non-empty file list. */
  function HandleFileInput(s: UploadState, files: Option<seq<File>>, objectUrl: Option<string>): (r: Step)
    ensures files == None || files == Some([]) ==> r == Step(s, Callbacks([], []))
    ensures files.Some? && |files.value| > 0 ==> r == HandleFile(s, files.value[0], objectUrl)
  {
    if files.Some? && |files.value| > 0 then HandleFile(s, files.value[0], objectUrl)
    else Step(s, Callbacks([], []))
  }

  /** Only the first file counts: dropping or choosing several files does
      what choosing the first alone does, and the two handlers agree. */
  lemma OnlyFirstFile(s: UploadState, files: seq<File>, objectUrl: Option<string>)
    requires files != []
    ensures HandleDrop(s, files, objectUrl) == HandleDrop(s, [files[0]], objectUrl)
    ensures HandleFileInput(s, Some(files), objectUrl) == HandleFileInput(s, Some([files[0]]), objectUrl)
    ensures HandleDrop(s, files, objectUrl) == HandleFileInput(s.(isDragging := false), Some(files), objectUrl)
  {
  }

  /** An unacceptable file shows and reports the same message and is never
      passed on; an acceptable one is passed on once with its object URL,
      clearing any earlier message. */
  lemma HandleFileOutcomes(s: UploadState, f: File, url: string)
    ensures var r := HandleFile(s, f, Some(url));
            ValidateFile(f) == None <==> r.calls == Callbacks([Some(url)], []) && r.state.localError == None
    ensures var r := HandleFile(s, f, Some(url));
            ValidateFile(f).Some? ==> r.state.localError == ValidateFile(f)
                                      && r.calls == Callbacks([], [ValidateFile(f).value])
  {
  }

  /** `removeImage`: tell the parent there is no image and clear the
      message. Revoking the object URL is not modelled. */
  function RemoveImage(s: UploadState): (r: Step)
    ensures r.calls == Callbacks([None], [])
    ensures r.state.localError == None
    ensures r.state.isDragging == s.isDragging && r.state.isUploading == s.isUploading
  {
    Step(s.(localError := None), Callbacks([None], []))
  }
}

=== FILE: wrappers.dfy ===
/** Optional values: the model's stand-in for TypeScript's `T | null`. */
module Wrappers {

  datatype Option<+T> = None | Some(value: T)
}
